=== FILE: README.md ===
# ai-recruiter client core, modelled in Dafny

The ai-recruiter web client walks a candidate through a voice interview with a
conversational agent. The route slug (`/tammy`, `/edson`, ...) picks the agent
from a fixed table. A four-step flow then runs: set-up page, audio device
set-up, live voice session, completion page. This project models the
sequential logic behind those screens as pure functions over explicit state
records:

- `session.dfy` — the live voice screen (`VoiceComponent`). It holds:
  - the state record and the SDK-owned connection status;
  - the window-global microphone stream and the component's ref to it;
  - every event handler, the effects that follow a render, and the choice of
    view;
  - the invariant kept over any event sequence.
- `inbound.dfy` — the loosely shaped messages the SDK delivers, the
  field-name fallbacks used to read them, and a canonical form they
  normalise to.
- `capture.dfy` — a media stream as a sequence of tracks, each with an
  `enabled` switch and a `stopped` flag.
- `duration.dfy` — the `MM:SS` call-duration display and a reader that
  parses it back.
- `decimal.dfy` — `Number.prototype.toString` on non-negative integers,
  `padStart`, and the value a digit string denotes.
- `devices.dfy` — the audio set-up step (`AudioSetup`):
  - device partition by kind and default selection;
  - ordinal labels, the begin guard, and the view choice.
- `flow.dfy` — the four-step `InterviewFlow` machine, the recorded result
  and the completion page.
- `slug.dfy` — slug extraction from the path and the navigation target of
  `InterviewSetup`.
- `agents.dfy` — the slug to agent-id table and the slug page that resolves
  it.
- `common.dfy` — `Option`.

Environment inputs are explicit parameters or events:

- the SDK's callbacks, its `isSpeaking` flag and the outcome of
  `startSession`/`endSession`;
- the one-second timer and the one-second quiet timer;
- what `getUserMedia` and `enumerateDevices` return.

Nothing reads a clock or the network.

React's state updates are modelled as record updates applied in handler
order. The mute effect (dependencies `isMuted` and `status`) runs after an
event when either of those changed.

## Model

| member | source | states |
|---|---|---|
| Inbound.TextOf | src/components/VoiceComponent.tsx:50 | the text is the first truthy of `message`, `text`, `content`, and empty exactly when none is truthy |
| Inbound.ToolName | src/components/VoiceComponent.tsx:73 | the tool name is the first truthy of `function`, `name`, `tool` |
| Inbound.CandidateNameOf | src/components/VoiceComponent.tsx:74-77 | the name comes from `arguments` if present, else `args`, else `{}`; a falsy `candidateName` gives "" |
| Inbound.Normalize | src/components/VoiceComponent.tsx:45-82 | a non-object carries nothing; an utterance always has text; a scheduling request is carried exactly when the tool call names `showCalendly` |
| Inbound.SpeakerAttribution | src/components/VoiceComponent.tsx:49-70 | for a message with text: candidate iff the user test passes, agent iff the agent test passes and the user test does not, unattributed iff neither `type` nor `source` is set, nothing otherwise |
| Session.OnMessage | src/components/VoiceComponent.tsx:45-82 | no message changes status, `hasEnded`, the stream, mute, error or duration; a non-object changes nothing; `showCalendly` is raised with the carried name exactly on a `showCalendly` tool call, and otherwise the scheduling fields stay |
| Session.AgentMessageOverwrites | src/components/VoiceComponent.tsx:49-55 | an agent message with text replaces the transcript with exactly that text and sets the speaking flag |
| Session.UserMessageWins | src/components/VoiceComponent.tsx:49-63 | a user message with text shows "You: " + text and clears the speaking flag, even when the agent test also passes |
| Session.UnlabelledKeepsSpeaker | src/components/VoiceComponent.tsx:65-70 | a message with neither `type` nor `source` shows its text and leaves the speaking flag alone |
| Session.SilentMessageKeepsTranscript | src/components/VoiceComponent.tsx:48-70 | without text, or with an unrecognised `type`/`source`, the transcript and speaking flag are unchanged |
| Session.OnMessageIsCanonical | src/components/VoiceComponent.tsx:45-82 | the handler's chain of tests equals the canonical reducer applied to the normalised message, for every payload |
| Session.OnConnect | src/components/VoiceComponent.tsx:25-33 | connecting clears `hasEnded` and points the ref at the global stream when one exists; apart from the SDK's status nothing else changes, so an earlier error message stays |
| Session.OnDisconnect | src/components/VoiceComponent.tsx:34-44 | disconnecting sets `hasEnded`, stops every track of the global stream (and only when there is one), clears the global and the ref; apart from the SDK's status nothing else changes |
| Session.ReleaseOnce | src/components/VoiceComponent.tsx:38-43 | a second disconnect finds no stream to stop |
| Session.MuteEffect | src/components/VoiceComponent.tsx:136-158 | while connected every track of the global and of the ref gets `enabled = !isMuted`, keeping the tracks and their stopped flags; otherwise nothing changes; no other field moves |
| Session.InitInv | src/components/VoiceComponent.tsx:13-21 | the mounted state (not muted, empty texts, zero duration, no ref) keeps the invariant |
| Session.ErrorShowsMessage | src/components/VoiceComponent.tsx:83-87 | an error string, or an error object's message, becomes the error message and nothing else changes |
| Session.StartupOutcome | src/components/VoiceComponent.tsx:92-106 | the startup effect clears the error and the ended flag and nothing else; a failed start leaves the fixed connection message, shown on the error screen unless scheduling is up while connected |
| Session.FailedStartShowsError | src/components/VoiceComponent.tsx:92-106 | a failed start right after mount shows the error screen |
| Session.SpeakingOnlyMovesFlags | src/components/VoiceComponent.tsx:108-115 | a speaking change from the SDK touches only the speaking flag, the SDK's own flag and the pending timer |
| Session.QuietOnlyMovesFlag | src/components/VoiceComponent.tsx:108-115 | the one-second timer touches only the speaking flag and the pending timer |
| Session.ConnectingOnlyStatus | src/components/VoiceComponent.tsx:90 | the SDK reporting "connecting" changes the status and nothing else |
| Session.SpeakingSetsFlag | src/components/VoiceComponent.tsx:108-110 | when the SDK starts speaking, the speaking flag is set |
| Session.QuietClearsSpeaking | src/components/VoiceComponent.tsx:108-115 | when the SDK stops speaking, the flag is cleared once the one-second timer fires |
| Session.SpeakingAgainCancelsQuiet | src/components/VoiceComponent.tsx:108-115 | speaking again before the timer fires cancels it, so the flag stays set |
| Session.EndCallOnlyEnds | src/components/VoiceComponent.tsx:166-173 | ending the call sets the ended flag exactly when `endSession` resolves and changes nothing else |
| Session.ToggleFlips | src/components/VoiceComponent.tsx:175-177 | toggling flips the mute switch and, apart from the tracks written while connected, changes nothing else |
| Session.RunInv | src/components/VoiceComponent.tsx:25-158 | over any event sequence the ref is empty or the global stream, and while connected the tracks are enabled exactly when not muted |
| Session.ConnectAppliesMute | src/components/VoiceComponent.tsx:136-158 | on connecting, a mute switched on before the connection is written to every track |
| Session.ToggleTwice | src/components/VoiceComponent.tsx:175-177 | toggling mute twice restores the whole state, tracks included |
| Session.StatusOwnedBySdk | src/components/VoiceComponent.tsx:90 | only the SDK's connecting, connect and disconnect events change the status |
| Session.TickCounts | src/components/VoiceComponent.tsx:117-123 | while connected a timer tick adds one second and changes nothing else; while not connected it changes nothing |
| Session.TalkAgainResets | src/components/VoiceComponent.tsx:179-193 | talk-again clears ended, duration, transcript, scheduling, name, error and mute, and a failed restart leaves "Failed to restart"; nothing else changes apart from the tracks and stream the unmute writes |
| Session.CloseSchedulingOnly | src/components/VoiceComponent.tsx:213 | closing the scheduling surface lowers `showCalendly` and changes nothing else |
| Session.ViewOf | src/components/VoiceComponent.tsx:195-297 | one view per state: scheduling iff raised while connected, ended iff ended and disconnected, error iff an error and neither of those, connecting iff disconnected without an end and no error, live otherwise |
| Session.DisconnectShowsEnded | src/components/VoiceComponent.tsx:34-44 | after a disconnect the ended screen is shown, whatever the error or scheduling state |
| Capture.SetEnabled | src/components/VoiceComponent.tsx:141-143 | every track gets the requested switch; the stopped flags and the track count stay |
| Capture.StopAll | src/components/VoiceComponent.tsx:40 | every track is stopped; switches and the track count stay |
| Capture.SetEnabledTwice | src/components/VoiceComponent.tsx:141-151 | writing the switch twice equals writing the last value once |
| Duration.Field | src/components/VoiceComponent.tsx:163 | a field is digits that denote the number, at least two of them, exactly two below 100 |
| Duration.FieldIsPadStart | src/components/VoiceComponent.tsx:163 | the field is exactly `toString()` padded at the start with '0' to width 2 |
| Duration.FormatDuration | src/components/VoiceComponent.tsx:160-164 | digits, a colon, two digits; the seconds part is below 60 and minutes*60+seconds equals the input; five characters iff under 100 minutes |
| Duration.FormatIsPadStart | src/components/VoiceComponent.tsx:160-163 | the display equals the template: both numbers' `toString()` padded at the start with '0' to width 2, joined by a colon |
| Duration.MinutesLeadingZero | src/components/VoiceComponent.tsx:161-163 | the display starts with '0' exactly when under ten minutes have passed, so it has no leading zero past 99 minutes |
| Duration.ParseFormat | src/components/VoiceComponent.tsx:160-164 | reading the display back gives the input seconds |
| Duration.FormatInjective | src/components/VoiceComponent.tsx:160-164 | different durations display differently |
| Decimal.NatToString | src/components/VoiceComponent.tsx:163 | `toString()` is digits denoting the number, with no leading zero except for 0 |
| Decimal.PadStart | src/components/VoiceComponent.tsx:163 | padding keeps a string already at the width; otherwise the result has exactly the width and ends with the string, and every added character is the fill |
| Decimal.PadValue | src/components/VoiceComponent.tsx:163 | zero padding keeps the string a digit string with the same value |
| Devices.OfKind | src/components/AudioSetup.tsx:44-45 | a device is kept iff it is listed and of the kind |
| Devices.OfKindAppend | src/components/AudioSetup.tsx:44-45 | filtering keeps enumeration order (it distributes over concatenation) |
| Devices.KindsPartition | src/components/AudioSetup.tsx:44-45 | every enumerated device falls in exactly one kind's list |
| Devices.LoadDevices | src/components/AudioSetup.tsx:30-58 | refused access only shows the fixed message; granted access publishes the stream and records permission; a listing gives exactly the inputs and outputs with the first of each selected; a failed listing shows the message, publishes the stream and records permission, and keeps the selections and lists |
| Devices.DeniedNeverBegins | src/components/AudioSetup.tsx:53-66 | after refused access, begin never completes |
| Devices.LoadSelectionListed | src/components/AudioSetup.tsx:49-50 | after loading, each selection is empty or names a listed device |
| Devices.ChooseMicrophone | src/components/AudioSetup.tsx:165-168 | picking the `i`-th microphone selects exactly that device's id and changes nothing else |
| Devices.ChosenMicrophoneShown | src/components/AudioSetup.tsx:150-168 | with distinct ids, after picking the `i`-th microphone the closed dropdown shows that device's label at position `i` |
| Devices.ChooseSpeaker | src/components/AudioSetup.tsx:216-219 | picking the `i`-th speaker selects exactly that device's id and changes nothing else |
| Devices.ChosenSpeakerShown | src/components/AudioSetup.tsx:201-219 | with distinct ids, after picking the `i`-th speaker the closed dropdown shows that device's label at position `i` |
| Devices.Begin | src/components/AudioSetup.tsx:60-66 | begin completes iff permission is granted and a microphone is selected, then stores exactly the two selections and keeps the other storage keys; otherwise storage is untouched |
| Devices.DisabledIffNoOp | src/components/AudioSetup.tsx:243 | the begin button is disabled exactly when begin would do nothing |
| Devices.DeviceLabel | src/components/AudioSetup.tsx:68-70 | a label is the device's own label, else the kind name, a space and the canonical decimal spelling of the 1-based position |
| Devices.FindOwnIndex | src/components/AudioSetup.tsx:150 | with distinct ids, `findIndex` of a listed device's id is that device's position |
| Devices.FindIndex | src/components/AudioSetup.tsx:150 | `findIndex` returns the first position with the id, and -1 (None) exactly when no device has it |
| Devices.SelectedLabelAsWritten | src/components/AudioSetup.tsx:150 | the lookup as written yields a label exactly when the selected id is listed, and then it is the label of the first device with that id, at that device's position |
| Devices.SelectedLabel | src/components/AudioSetup.tsx:201 | the corrected lookup agrees with the as-written one whenever that succeeds and shows the kind name otherwise |
| Devices.ViewOf | src/components/AudioSetup.tsx:72-201 | loading iff loading, the error screen with its message iff an error after loading; otherwise the render throws iff a selection names no listed device, and else shows the form with the as-written labels |
| Devices.ViewCorrected | src/components/AudioSetup.tsx:72-201 | the same chain with the placeholder label: never throws, and shows the form iff neither loading nor an error |
| Devices.CorrectionOnlyWhereThrown | src/components/AudioSetup.tsx:150-201 | the corrected view differs from the as-written one only where that one throws, and there it shows the form |
| Devices.NoSpeakerThrows | src/components/AudioSetup.tsx:201 | a listing with a microphone and no speaker leaves the speaker unselected, and the render throws |
| Devices.LabelsTotal | src/components/AudioSetup.tsx:150-201 | with the fallback, the form always has both labels: the as-written one when the device is listed, the kind name otherwise |
| Flow.Record | src/components/InterviewFlow.tsx:29 | the result has the data's keys plus `outcome`; a data field named `outcome` overrides the argument |
| Flow.Fire | src/components/InterviewFlow.tsx:20-31 | the three handlers move to audio, interview and complete, the last one recording the result |
| Flow.Dispatch | src/components/InterviewFlow.tsx:33-46 | a step moves iff the rendered component holds that handler, and then by exactly one step forward; a handler the rendered component does not hold changes nothing |
| Flow.RunMonotone | src/components/InterviewFlow.tsx:20-31 | the flow never moves backward |
| Flow.StuckAtSetup | src/components/InterviewFlow.tsx:33-36 | from the initial state the flow never leaves the set-up step |
| Flow.PageOf | src/components/InterviewFlow.tsx:33-77 | each step has its page, and the complete step shows the pass page iff the recorded outcome is "pass" |
| Flow.CompletionPage | src/components/InterviewFlow.tsx:28-31 | completing shows the pass page iff the effective outcome (data's own `outcome` first) is "pass" |
| Slug.Split | src/components/InterviewSetup.tsx:12 | `split` gives at least one part and no part contains the separator (with `JoinSplit`, this fixes the parts) |
| Slug.JoinSplit | src/components/InterviewSetup.tsx:12 | joining the split parts with '/' gives back the path |
| Slug.ExtractSlug | src/components/InterviewSetup.tsx:12 | a slug is non-empty and contains no '/' |
| Slug.ExtractIsFirstSegment | src/components/InterviewSetup.tsx:12 | the slug is the first run of non-slash characters after the leading slashes |
| Slug.LeadingSlash | src/components/InterviewSetup.tsx:12 | extra leading slashes do not change the slug |
| Slug.TrailingSlash | src/components/InterviewSetup.tsx:12 | a trailing slash does not change the slug |
| Slug.FirstOnly | src/components/InterviewSetup.tsx:12 | later segments are ignored |
| Slug.NoSlug | src/components/InterviewSetup.tsx:12 | there is no slug iff the path is only slashes |
| Slug.Examples | src/components/InterviewSetup.tsx:11-12 | "/tammy", "/tammy/", "//tammy" and "/tammy/interview" give "tammy"; "/" gives none |
| Slug.NavigationTarget | src/components/InterviewSetup.tsx:14-17 | the target is "/" + slug + "/interview", and "/undefined/interview" when there is no slug |
| Slug.TargetKeepsSlug | src/components/InterviewSetup.tsx:12-17 | the navigation target's own slug is the current slug |
| Agents.AgentFor | src/lib/utils.ts:9-15 | an agent exists iff the slug is one of the five keys, and every agent id starts with "agent_" |
| Agents.TableShape | src/lib/utils.ts:9-15 | five slugs map to five different agent ids |
| Agents.Lookups | src/lib/utils.ts:12 | "tammy" maps to its agent and an unknown slug to none |

`Agents.Resolve` models the slug page, `src/app/[slug]/page.tsx` lines
10-21. An unmapped slug gives the not-found page, and a mapped one gives the
interview flow with its agent.

## Left out

- JSX markup, styling, icons, and the dropdown open/closed flags of `AudioSetup`: they are presentation only.
- The `cn` class-name helper in `src/lib/utils.ts`: it is styling, not logic.
- Console logging: it has no effect on state.
- The calendly widget script injection (`VoiceComponent.tsx:125-133`): a DOM side effect that does not touch state.
- The "Try again" and error-screen reload buttons: they reload the page, which the model treats as leaving the screen.
- Real time. The 800 ms start delay, the one-second duration timer and the one-second quiet timer are events the environment chooses. Timer cancellation is modelled by the `quietPending` flag.
- The SDK's internals. `status` and `isSpeaking` change only through SDK events, and `startSession`/`endSession` are reduced to their success or failure.
- Payload fields other than strings. Message fields are strings or absent, and tool arguments are an object or absent. A non-string truthy value (a number, an object) and arguments delivered as a JSON string are not modelled.
- `onInterviewComplete`: the voice screen never calls it, and the voice-screen model in `session.dfy` has no event that does. `Flow.Dispatch` still moves the flow from the interview step to completion when the handler is called.
- Inherited keys of `slugAgentMap`: a lookup such as `slugAgentMap["toString"]` yields a function, which is not modelled. The table is the five own keys.
- Duration.FormatDuration: `Number.prototype.toString` switches to exponent notation for numbers of 1e21 and above, which a call counter never reaches. The model always spells the number in plain digits.
- `MediaDeviceInfo.groupId`: the screen never reads it. Video inputs are kept as a kind only so that the kind filter has something to drop.
- `InterviewSetup` renders no handler for the flow's `onStartInterview`. It navigates with `router.push` instead, and the routing to the `/[slug]/interview` page is not part of this model. `Flow.StuckAtSetup` states the consequence inside the flow.

## Findings

| source | as written | input that shows it | evidently intended | confidence | as-written member | corrected member |
|---|---|---|---|---|---|---|
| src/components/AudioSetup.tsx:150, src/components/AudioSetup.tsx:201 | the closed dropdown's label is `getDeviceLabel(list.find(d => d.deviceId === selected)!, ...)`; when no device has the selected id, `find` yields `undefined` and reading `.label` throws during render | an enumeration with one microphone and no audio output (browsers that do not list outputs): the selected speaker stays "" and the speaker lookup finds nothing | a missing device shows a placeholder label instead of crashing the form | not executed | Devices.ViewOf, Devices.NoSpeakerThrows | Devices.ViewCorrected, Devices.LabelsTotal |

=== FILE: agents.dfy ===
/** The static table from a route slug to the conversational agent's id,
    and the slug page that resolves it. */
module Agents {
  import opened Common

  const SlugAgentMap: map<string, string> := map[
    "edson" := "agent_9501k7qamwsgf36s56prjq6g5b87",
    "griffin" := "agent_2301k7rssrjfe6hrz2q7p4px6355",
    "tammy" := "agent_8701k7t0e8kke03bgs229zwkzehe",
    "sales" := "agent_8901k329d3mxepqt8k5qv8kvzhv9",
    "frickey" := "agent_2001k84gjhd3frma6vfckjbrcn2f"
  ]

  const AgentPrefix := "agent_"

  const KnownSlugs: set<string> := {"edson", "griffin", "tammy", "sales", "frickey"}

  /** `slugAgentMap[slug]`, with `None` for `undefined`. */
  function AgentFor(slug: string): (r: Option<string>)
    ensures r.Some? <==> slug in KnownSlugs
    ensures r.Some? ==> |r.value| > |AgentPrefix| && r.value[..|AgentPrefix|] == AgentPrefix
  {
    if slug in SlugAgentMap then Some(SlugAgentMap[slug]) else None
  }

  /** Five slugs, five different agents. */
  lemma TableShape()
    ensures SlugAgentMap.Keys == KnownSlugs
    ensures |KnownSlugs| == 5
    ensures forall a, b :: a in SlugAgentMap && b in SlugAgentMap && a != b ==>
              SlugAgentMap[a] != SlugAgentMap[b]
  {
  }

  lemma Lookups()
    ensures AgentFor("tammy") == Some("agent_8701k7t0e8kke03bgs229zwkzehe")
    ensures AgentFor("unknown").None?
  {
  }

  datatype Route = NotFound(slug: string) | Interview(slug: string, agentId: string)

  /** The slug page: an unmapped (or falsy) agent id shows the not-found
      message, otherwise the interview flow for that agent. */
  function Resolve(slug: string): (r: Route)
    ensures r.NotFound? <==> slug !in KnownSlugs
    ensures r.Interview? ==> r.slug == slug && Some(r.agentId) == AgentFor(slug)
  {
    var a := AgentFor(slug);
    if a.None? || a.value == "" then NotFound(slug) else Interview(slug, a.value)
  }
}

=== FILE: capture.dfy ===
/** The microphone capture handle (a `MediaStream` from `getUserMedia`):
    a sequence of audio tracks, each with its `enabled` switch and whether
    `stop()` has been called on it. */
module Capture {
  import opened Common

  datatype Track = Track(enabled: bool, stopped: bool)

  datatype Handle = Handle(tracks: seq<Track>)

  /** Every track's `enabled` switch is `on`. */
  predicate AllEnabledAre(h: Handle, on: bool) {
    forall i :: 0 <= i < |h.tracks| ==> h.tracks[i].enabled == on
  }

  /** Every track has been stopped: the hardware is released. */
  predicate Released(h: Handle) {
    forall i :: 0 <= i < |h.tracks| ==> h.tracks[i].stopped
  }

  /** `getAudioTracks().forEach(t => t.enabled = on)`. */
  function SetEnabled(h: Handle, on: bool): (r: Handle)
    ensures |r.tracks| == |h.tracks|
    ensures AllEnabledAre(r, on)
    ensures forall i :: 0 <= i < |h.tracks| ==> r.tracks[i].stopped == h.tracks[i].stopped
  {
    Handle(seq(|h.tracks|, i requires 0 <= i < |h.tracks| => h.tracks[i].(enabled := on)))
  }

  /** `getTracks().forEach(t => t.stop())`. */
  function StopAll(h: Handle): (r: Handle)
    ensures |r.tracks| == |h.tracks|
    ensures Released(r)
    ensures forall i :: 0 <= i < |h.tracks| ==> r.tracks[i].enabled == h.tracks[i].enabled
  {
    Handle(seq(|h.tracks|, i requires 0 <= i < |h.tracks| => h.tracks[i].(stopped := true)))
  }

  /** Writing the value every track already has changes nothing. */
  lemma SetEnabledIdempotent(h: Handle, on: bool)
    requires AllEnabledAre(h, on)
    ensures SetEnabled(h, on) == h
  {
    assert SetEnabled(h, on).tracks == h.tracks;
  }

  /** Only the last write to the `enabled` switches is visible. */
  lemma SetEnabledTwice(h: Handle, a: bool, b: bool)
    ensures SetEnabled(SetEnabled(h, a), b) == SetEnabled(h, b)
  {
    assert SetEnabled(SetEnabled(h, a), b).tracks == SetEnabled(h, b).tracks;
  }

  /** The optional handle with `SetEnabled` applied when present. */
  function SetEnabledIfAny(h: Option<Handle>, on: bool): (r: Option<Handle>)
    ensures r.Some? <==> h.Some?
    ensures r.Some? ==> r.value == SetEnabled(h.value, on)
  {
    match h
    case None => None
    case Some(x) => Some(SetEnabled(x, on))
  }
}

=== FILE: common.dfy ===
/** Shared wrapper types. */
module Common {

  /** A value that may be absent: JavaScript's `undefined` for an optional
      field, or a lookup that found nothing. */
  datatype Option<+T> = None | Some(value: T)
}

=== FILE: decimal.dfy ===
/** Decimal digit strings: JavaScript's `Number.prototype.toString()` on
    non-negative integers, `padStart` with a fill character, and the value a
    digit string denotes (the reading used to state round trips). */
module Decimal {

  predicate IsDigit(c: char) {
    '0' <= c <= '9'
  }

  predicate IsDigits(s: string) {
    forall i :: 0 <= i < |s| ==> IsDigit(s[i])
  }

  function DigitValue(c: char): (d: nat)
    requires IsDigit(c)
    ensures d < 10
  {
    c as int - '0' as int
  }

  function DigitChar(d: nat): (c: char)
    requires d < 10
    ensures IsDigit(c) && DigitValue(c) == d
  {
    (d + '0' as int) as char
  }

  /** The number a digit string denotes, most significant digit first. The
      empty string denotes 0. */
  function Value(s: string): nat
    requires IsDigits(s)
  {
    if |s| == 0 then 0 else Value(s[..|s| - 1]) * 10 + DigitValue(s[|s| - 1])
  }

  /** `n.toString()` for a non-negative integer: the canonical decimal
      spelling, with no leading zero except for 0 itself. */
  function NatToString(n: nat): (r: string)
    ensures IsDigits(r) && Value(r) == n
    ensures |r| >= 1
    ensures r[0] == '0' ==> n == 0
    ensures n < 10 <==> |r| == 1
    ensures n < 100 <==> |r| <= 2
  {
    if n < 10 then [DigitChar(n)]
    else
      var r := NatToString(n / 10) + [DigitChar(n % 10)];
      assert r[..|r| - 1] == NatToString(n / 10);
      r
  }

  /** `s.padStart(width, c)` for a one-character fill string: prepend the
      fill until the width is reached. */
  function PadStart(s: string, width: nat, c: char): (r: string)
    ensures |s| >= width ==> r == s
    ensures |s| < width ==> |r| == width
    ensures |r| >= |s| && r[|r| - |s|..] == s
    ensures forall i :: 0 <= i < |r| - |s| ==> r[i] == c
    decreases width - |s|
  {
    if |s| >= width then s
    else
      var t := [c] + s;
      var r := PadStart(t, width, c);
      assert r[|r| - |t|..] == t;
      assert r[|r| - |s|..] == t[1..];
      assert r[|r| - |t|] == c;
      assert forall i :: 0 <= i < |r| - |s| ==> r[i] == c by {
        forall i | 0 <= i < |r| - |s|
          ensures r[i] == c
        {
          if i == |r| - |t| {
            assert r[i] == t[0];
          }
        }
      }
      r
  }

  /** A leading zero does not change the number a digit string denotes. */
  lemma {:induction false} LeadingZero(s: string)
    requires IsDigits(s)
    ensures IsDigits(['0'] + s)
    ensures Value(['0'] + s) == Value(s)
  {
    var t := ['0'] + s;
    if |s| > 0 {
      LeadingZero(s[..|s| - 1]);
      assert t[..|t| - 1] == ['0'] + s[..|s| - 1];
    } else {
      assert t[..|t| - 1] == [];
    }
  }

  /** Zero padding keeps the digits and the value. */
  lemma {:induction false} PadValue(s: string, width: nat)
    requires IsDigits(s)
    ensures IsDigits(PadStart(s, width, '0'))
    ensures Value(PadStart(s, width, '0')) == Value(s)
    decreases width - |s|
  {
    if |s| < width {
      LeadingZero(s);
      PadValue(['0'] + s, width);
    }
  }
}

=== FILE: devices.dfy ===
/** The audio set-up step: acquire the microphone, list the devices by
    kind, default the selection to the first of each kind, label devices
    that have no label, and guard the step that begins the interview. */
module Devices {
  import opened Common
  import opened Capture
  import opened Decimal

  /** `MediaDeviceInfo.kind`. */
  datatype DeviceKind = AudioInput | AudioOutput | VideoInput

  datatype Device = Device(deviceId: string, kind: DeviceKind, labelText: string)

  /** The component's state; `mic` is the window-global stream slot. */
  datatype SetupState = SetupState(
    microphones: seq<Device>,
    speakers: seq<Device>,
    selectedMic: string,
    selectedSpeaker: string,
    permissionGranted: bool,
    isLoading: bool,
    error: string,
    mic: Option<Handle>)

  const MicRequiredMessage :=
    "Microphone access is required. Please enable it in your browser settings and refresh."

  /** The state at mount; `global` is whatever the window slot held. */
  function Init(global: Option<Handle>): SetupState {
    SetupState([], [], "", "", false, true, "", global)
  }

  /** `devices.filter(d => d.kind === k)`. */
  function OfKind(ds: seq<Device>, k: DeviceKind): (r: seq<Device>)
    ensures forall d :: d in r <==> d in ds && d.kind == k
    ensures |r| <= |ds|
  {
    if |ds| == 0 then []
    else (if ds[0].kind == k then [ds[0]] else []) + OfKind(ds[1..], k)
  }

  /** Filtering distributes over concatenation: devices keep their
      enumeration order. */
  lemma {:induction false} OfKindAppend(a: seq<Device>, b: seq<Device>, k: DeviceKind)
    ensures OfKind(a + b, k) == OfKind(a, k) + OfKind(b, k)
  {
    if |a| == 0 {
      assert a + b == b;
    } else {
      assert (a + b)[1..] == a[1..] + b;
      OfKindAppend(a[1..], b, k);
    }
  }

  /** Every enumerated device lands in exactly one kind's list. */
  lemma {:induction false} KindsPartition(ds: seq<Device>)
    ensures |OfKind(ds, AudioInput)| + |OfKind(ds, AudioOutput)| + |OfKind(ds, VideoInput)| == |ds|
  {
    if |ds| > 0 {
      KindsPartition(ds[1..]);
    }
  }

  /** What `getUserMedia` and `enumerateDevices` deliver. */
  datatype Access = Granted(stream: Handle) | Denied
  datatype Listing = Listed(devices: seq<Device>) | ListFailed

  /** `requestPermissionsAndLoadDevices`. */
  function LoadDevices(s: SetupState, access: Access, listing: Listing): (r: SetupState)
    ensures !r.isLoading
    // permission refused: nothing stored, the fixed message shown
    ensures access.Denied? ==>
      r == s.(isLoading := false, error := MicRequiredMessage)
    // permission given: the stream is published and permission recorded
    ensures access.Granted? ==> r.permissionGranted && r.mic == Some(access.stream)
    // listing failed after access: the stream stays published, only the message is added
    ensures access.Granted? && listing.ListFailed? ==>
      r == s.(isLoading := false, error := MicRequiredMessage, mic := Some(access.stream), permissionGranted := true)
    // listed: exactly the inputs and the outputs, defaulting to the first
    ensures access.Granted? && listing.Listed? ==>
      && r.error == ""
      && r.microphones == OfKind(listing.devices, AudioInput)
      && r.speakers == OfKind(listing.devices, AudioOutput)
      && r.selectedMic == (if |r.microphones| > 0 then r.microphones[0].deviceId else s.selectedMic)
      && r.selectedSpeaker == (if |r.speakers| > 0 then r.speakers[0].deviceId else s.selectedSpeaker)
  {
    var s1 := s.(isLoading := true, error := "");
    match access
    case Denied => s1.(error := MicRequiredMessage, isLoading := false)
    case Granted(h) =>
      var s2 := s1.(mic := Some(h), permissionGranted := true);
      match listing
      case ListFailed => s2.(error := MicRequiredMessage, isLoading := false)
      case Listed(ds) =>
        var mics := OfKind(ds, AudioInput);
        var outs := OfKind(ds, AudioOutput);
        var s3 := s2.(microphones := mics, speakers := outs);
        var s4 := if |mics| > 0 then s3.(selectedMic := mics[0].deviceId) else s3;
        var s5 := if |outs| > 0 then s4.(selectedSpeaker := outs[0].deviceId) else s4;
        s5.(isLoading := false)
  }

  /** Refused access from mount: permission is never recorded, so the
      interview can never begin from this screen. */
  lemma DeniedNeverBegins(global: Option<Handle>, listing: Listing, storage: map<string, string>)
    ensures !LoadDevices(Init(global), Denied, listing).permissionGranted
    ensures !Begin(LoadDevices(Init(global), Denied, listing), storage).1
  {
  }

  /** Picking a microphone from the dropdown. */
  function ChooseMicrophone(s: SetupState, i: nat): (r: SetupState)
    requires i < |s.microphones|
    ensures r.selectedMic == s.microphones[i].deviceId
    ensures InList(s.microphones, r.selectedMic)
    ensures r.(selectedMic := s.selectedMic) == s
  {
    s.(selectedMic := s.microphones[i].deviceId)
  }

  /** Picking a speaker from the dropdown. */
  function ChooseSpeaker(s: SetupState, i: nat): (r: SetupState)
    requires i < |s.speakers|
    ensures r.selectedSpeaker == s.speakers[i].deviceId
    ensures InList(s.speakers, r.selectedSpeaker)
    ensures r.(selectedSpeaker := s.selectedSpeaker) == s
  {
    s.(selectedSpeaker := s.speakers[i].deviceId)
  }

  // ----- beginning the interview -------------------------------------------

  const MicKey := "selectedMicrophone"
  const SpeakerKey := "selectedSpeaker"

  /** The guard of `handleBegin`. */
  predicate CanBegin(s: SetupState) {
    s.permissionGranted && s.selectedMic != ""
  }

  /** The `disabled` attribute of the begin button. */
  predicate BeginDisabled(s: SetupState) {
    !s.permissionGranted || s.selectedMic == ""
  }

  /** `handleBegin`: the new session storage, and whether `onComplete` was
      called. */
  function Begin(s: SetupState, storage: map<string, string>): (r: (map<string, string>, bool))
    ensures r.1 <==> s.permissionGranted && s.selectedMic != ""
    ensures r.1 ==> r.0.Keys == storage.Keys + {MicKey, SpeakerKey}
    ensures r.1 ==> r.0[MicKey] == s.selectedMic && r.0[SpeakerKey] == s.selectedSpeaker
    ensures r.1 ==> forall k :: k in storage && k != MicKey && k != SpeakerKey ==> r.0[k] == storage[k]
    ensures !r.1 ==> r.0 == storage
  {
    if CanBegin(s) then (storage[MicKey := s.selectedMic][SpeakerKey := s.selectedSpeaker], true)
    else (storage, false)
  }

  /** The button is disabled exactly when beginning would do nothing. */
  lemma DisabledIffNoOp(s: SetupState, storage: map<string, string>)
    ensures BeginDisabled(s) <==> !Begin(s, storage).1
  {
  }

  // ----- labels -----------------------------------------------------------

  /** `getDeviceLabel`: the device's own label, else the kind name and the
      1-based position. */
  function DeviceLabel(d: Device, index: nat, typ: string): (r: string)
    ensures d.labelText != "" ==> r == d.labelText
    ensures d.labelText == "" ==>
      && |r| > |typ| + 1
      && r[..|typ| + 1] == typ + " "
      && IsDigits(r[|typ| + 1..]) && Value(r[|typ| + 1..]) == index + 1
      && r[|typ| + 1..] == NatToString(index + 1)
  {
    if d.labelText != "" then d.labelText
    else
      var r := typ + " " + NatToString(index + 1);
      assert r[|typ| + 1..] == NatToString(index + 1);
      r
  }

  /** Unlabelled devices at different positions get different labels. */
  lemma OrdinalLabelsDistinct(d: Device, i: nat, e: Device, j: nat, typ: string)
    requires d.labelText == "" && e.labelText == "" && i != j
    ensures DeviceLabel(d, i, typ) != DeviceLabel(e, j, typ)
  {
  }

  /** Some device in the list has this id. */
  predicate InList(ds: seq<Device>, id: string) {
    exists k :: 0 <= k < |ds| && ds[k].deviceId == id
  }

  /** `findIndex(d => d.deviceId === id)`, with `None` for -1. */
  function FindIndex(ds: seq<Device>, id: string): (r: Option<nat>)
    ensures r.Some? ==> r.value < |ds| && ds[r.value].deviceId == id
    ensures r.Some? ==> forall k :: 0 <= k < r.value ==> ds[k].deviceId != id
    ensures r.None? <==> !InList(ds, id)
  {
    if |ds| == 0 then None
    else if ds[0].deviceId == id then Some(0)
    else
      match FindIndex(ds[1..], id)
      case None =>
        assert forall k :: 1 <= k < |ds| ==> ds[k] == ds[1..][k - 1];
        None
      case Some(i) =>
        assert ds[1..][i] == ds[i + 1];
        Some(i + 1)
  }

  /** The label on a closed dropdown as the source computes it: the label
      of the first device with the selected id; when there is none, `find`
      yields `undefined` and reading its `label` throws, modelled as `None`. */
  function SelectedLabelAsWritten(ds: seq<Device>, id: string, typ: string): (r: Option<string>)
    ensures r.Some? <==> InList(ds, id)
    ensures r.Some? ==>
      exists k :: (0 <= k < |ds| && ds[k].deviceId == id
                   && (forall j :: 0 <= j < k ==> ds[j].deviceId != id)
                   && r.value == DeviceLabel(ds[k], k, typ))
  {
    match FindIndex(ds, id)
    case None => None
    case Some(i) =>
      var r := DeviceLabel(ds[i], i, typ);
      assert ds[i].deviceId == id && (forall j :: 0 <= j < i ==> ds[j].deviceId != id) && r == DeviceLabel(ds[i], i, typ);
      Some(r)
  }

  /** The label with the missing-device case handled: the kind name stands
      in when the selection names no listed device. */
  function SelectedLabel(ds: seq<Device>, id: string, typ: string): (r: string)
    ensures InList(ds, id) ==> SelectedLabelAsWritten(ds, id, typ) == Some(r)
    ensures !InList(ds, id) ==> r == typ
  {
    match FindIndex(ds, id)
    case None => typ
    case Some(i) => DeviceLabel(ds[i], i, typ)
  }

  // ----- which screen is shown --------------------------------------------

  /** The screens of the set-up step. `RenderThrows` is a render that
      throws before producing a screen. */
  datatype SetupView =
    | Loading
    | Failed(message: string)
    | Configure(micLabel: string, speakerLabel: string)
    | RenderThrows

  /** The render chain as written: loading, then error, then the
      configuration form, whose two closed dropdowns look up the label of
      the selected device and throw when no listed device has its id. */
  function ViewOf(s: SetupState): (v: SetupView)
    ensures v.Loading? <==> s.isLoading
    ensures v.Failed? <==> !s.isLoading && s.error != ""
    ensures v.Failed? ==> v.message == s.error
    ensures v.RenderThrows? <==>
      !s.isLoading && s.error == "" && !(InList(s.microphones, s.selectedMic) && InList(s.speakers, s.selectedSpeaker))
    ensures v.Configure? ==>
      && Some(v.micLabel) == SelectedLabelAsWritten(s.microphones, s.selectedMic, "Microphone")
      && Some(v.speakerLabel) == SelectedLabelAsWritten(s.speakers, s.selectedSpeaker, "Speaker")
  {
    if s.isLoading then Loading
    else if s.error != "" then Failed(s.error)
    else
      var mic := SelectedLabelAsWritten(s.microphones, s.selectedMic, "Microphone");
      var speaker := SelectedLabelAsWritten(s.speakers, s.selectedSpeaker, "Speaker");
      if mic.Some? && speaker.Some? then Configure(mic.value, speaker.value) else RenderThrows
  }

  /** The render chain with the missing-device case handled: the kind name
      stands in for the label, so the form always renders. */
  function ViewCorrected(s: SetupState): (v: SetupView)
    ensures !v.RenderThrows?
    ensures v.Loading? <==> s.isLoading
    ensures v.Failed? <==> !s.isLoading && s.error != ""
    ensures v.Failed? ==> v.message == s.error
    ensures v.Configure? <==> !s.isLoading && s.error == ""
    ensures v.Configure? && InList(s.microphones, s.selectedMic) ==>
      Some(v.micLabel) == SelectedLabelAsWritten(s.microphones, s.selectedMic, "Microphone")
    ensures v.Configure? && InList(s.speakers, s.selectedSpeaker) ==>
      Some(v.speakerLabel) == SelectedLabelAsWritten(s.speakers, s.selectedSpeaker, "Speaker")
  {
    if s.isLoading then Loading
    else if s.error != "" then Failed(s.error)
    else Configure(SelectedLabel(s.microphones, s.selectedMic, "Microphone"),
                   SelectedLabel(s.speakers, s.selectedSpeaker, "Speaker"))
  }

  /** The correction changes only the renders that threw. */
  lemma CorrectionOnlyWhereThrown(s: SetupState)
    ensures ViewOf(s).RenderThrows? || ViewCorrected(s) == ViewOf(s)
    ensures ViewOf(s).RenderThrows? ==> ViewCorrected(s).Configure?
  {
  }

  /** No two devices of a list share an id. */
  predicate DistinctIds(ds: seq<Device>) {
    forall j, k :: 0 <= j < k < |ds| ==> ds[j].deviceId != ds[k].deviceId
  }

  /** With distinct ids, the lookup finds the device at its own position. */
  lemma FindOwnIndex(ds: seq<Device>, i: nat)
    requires i < |ds| && DistinctIds(ds)
    ensures FindIndex(ds, ds[i].deviceId) == Some(i)
  {
    assert InList(ds, ds[i].deviceId);
  }

  /** After picking the `i`-th microphone, the closed dropdown shows that
      device's label at its own position. */
  lemma ChosenMicrophoneShown(s: SetupState, i: nat)
    requires i < |s.microphones| && DistinctIds(s.microphones)
    ensures var v := ViewOf(ChooseMicrophone(s, i));
      v.Configure? ==> v.micLabel == DeviceLabel(s.microphones[i], i, "Microphone")
  {
    FindOwnIndex(s.microphones, i);
  }

  /** After picking the `i`-th speaker, the closed dropdown shows that
      device's label at its own position. */
  lemma ChosenSpeakerShown(s: SetupState, i: nat)
    requires i < |s.speakers| && DistinctIds(s.speakers)
    ensures var v := ViewOf(ChooseSpeaker(s, i));
      v.Configure? ==> v.speakerLabel == DeviceLabel(s.speakers[i], i, "Speaker")
  {
    FindOwnIndex(s.speakers, i);
  }

  /** A selection is empty or names a listed device. */
  predicate SelectionListed(s: SetupState) {
    && (s.selectedMic == "" || InList(s.microphones, s.selectedMic))
    && (s.selectedSpeaker == "" || InList(s.speakers, s.selectedSpeaker))
  }

  /** Loading from mount leaves the selections empty or listed, and the
      dropdowns keep it so. */
  lemma LoadSelectionListed(global: Option<Handle>, access: Access, listing: Listing)
    ensures SelectionListed(LoadDevices(Init(global), access, listing))
  {
    var r := LoadDevices(Init(global), access, listing);
    if access.Granted? && listing.Listed? {
      if |r.microphones| > 0 { assert r.microphones[0].deviceId == r.selectedMic; }
      if |r.speakers| > 0 { assert r.speakers[0].deviceId == r.selectedSpeaker; }
    }
  }

  /** An enumeration with a microphone and no speaker leaves the speaker
      selection empty, so the as-written label lookup finds nothing and the
      configuration form throws while rendering. */
  lemma NoSpeakerThrows(h: Handle, m: Device)
    requires m.kind == AudioInput
    ensures var s := LoadDevices(Init(None), Granted(h), Listed([m]));
      && ViewOf(s) == RenderThrows
      && s.speakers == [] && s.selectedSpeaker == ""
      && SelectedLabelAsWritten(s.speakers, s.selectedSpeaker, "Speaker").None?
  {
    var ds := [m];
    assert OfKind(ds, AudioOutput) == [] by {
      assert ds[1..] == [];
    }
  }

  /** With the fallback, every configuration form has a label for both
      dropdowns, and it is the as-written label whenever that one exists. */
  lemma LabelsTotal(s: SetupState)
    requires ViewCorrected(s).Configure?
    ensures InList(s.speakers, s.selectedSpeaker) ==>
      SelectedLabelAsWritten(s.speakers, s.selectedSpeaker, "Speaker") == Some(ViewCorrected(s).speakerLabel)
    ensures !InList(s.speakers, s.selectedSpeaker) ==> ViewCorrected(s).speakerLabel == "Speaker"
    ensures InList(s.microphones, s.selectedMic) ==>
      SelectedLabelAsWritten(s.microphones, s.selectedMic, "Microphone") == Some(ViewCorrected(s).micLabel)
    ensures !InList(s.microphones, s.selectedMic) ==> ViewCorrected(s).micLabel == "Microphone"
  {
  }
}

=== FILE: duration.dfy ===
/** The call-duration display of the voice screen: whole seconds shown as
    minutes and seconds separated by a colon, each padded to two digits. */
module Duration {
  import opened Common
  import opened Decimal

  /** One field of the display: `String(n).padStart(2, '0')`, which for a
      single digit prepends one zero and otherwise leaves the spelling alone
      (see `FieldIsPadStart`). */
  function Field(n: nat): (r: string)
    ensures IsDigits(r) && Value(r) == n
    ensures |r| >= 2
    ensures n < 100 <==> |r| == 2
  {
    if n < 10 then
      var r := ['0', DigitChar(n)];
      assert r[..1] == ['0'] && r[..1][..0] == [];
      assert Value(r[..1]) == 0;
      r
    else NatToString(n)
  }

  /** The field is exactly the library padding of the decimal spelling. */
  lemma FieldIsPadStart(n: nat)
    ensures Field(n) == PadStart(NatToString(n), 2, '0')
  {
    if n < 10 {
      assert [DigitChar(n)] == NatToString(n);
      assert ['0'] + [DigitChar(n)] == ['0', DigitChar(n)];
      assert PadStart([DigitChar(n)], 2, '0') == PadStart(['0', DigitChar(n)], 2, '0');
    } else {
      assert |NatToString(n)| >= 2;
    }
  }

  /** Cutting a colon-joined pair back apart at the colon, given a two-character
      right-hand side. */
  lemma SplitAtColon(mm: string, ss: string)
    requires |ss| == 2
    ensures var r := mm + ":" + ss;
      |r| == |mm| + 3 && r[|r| - 3] == ':' && r[..|r| - 3] == mm && r[|r| - 2..] == ss
  {
    var r := mm + ":" + ss;
    assert r[..|r| - 3] == mm;
    assert r[|r| - 2..] == ss;
  }

  /** A minutes field and a seconds field joined by a colon. */
  function Clock(minutes: nat, secs: nat): (r: string)
    requires secs < 60
    ensures |r| >= 5 && r[|r| - 3] == ':'
    ensures IsDigits(r[..|r| - 3]) && Value(r[..|r| - 3]) == minutes
    ensures IsDigits(r[|r| - 2..]) && Value(r[|r| - 2..]) == secs
    ensures minutes < 100 <==> |r| == 5
  {
    SplitAtColon(Field(minutes), Field(secs));
    Field(minutes) + ":" + Field(secs)
  }

  /** `formatDuration`: the minutes field counts whole minutes and the
      two-digit seconds field the remaining seconds (00 to 59), so together
      they account for exactly `seconds`; minutes get at least two digits,
      more once a hundred minutes have passed. */
  function FormatDuration(seconds: nat): (r: string)
    ensures |r| >= 5 && r[|r| - 3] == ':'
    ensures IsDigits(r[..|r| - 3]) && IsDigits(r[|r| - 2..])
    ensures Value(r[|r| - 2..]) < 60
    ensures Value(r[..|r| - 3]) * 60 + Value(r[|r| - 2..]) == seconds
    ensures seconds < 6000 <==> |r| == 5
  {
    DivMod(seconds);
    var r := Clock(seconds / 60, seconds % 60);
    assert Value(r[..|r| - 3]) == seconds / 60 && Value(r[|r| - 2..]) == seconds % 60;
    r
  }

  /** The display is exactly the source's template: the two numbers'
      `toString()` each padded at the start with '0' to width 2, joined by a
      colon. In particular, past 99 minutes the minutes carry no leading zero. */
  lemma FormatIsPadStart(seconds: nat)
    ensures FormatDuration(seconds) ==
      PadStart(NatToString(seconds / 60), 2, '0') + ":" + PadStart(NatToString(seconds % 60), 2, '0')
  {
    FieldIsPadStart(seconds / 60);
    FieldIsPadStart(seconds % 60);
  }

  /** Only a single-digit minute count is shown with a leading zero. */
  lemma MinutesLeadingZero(seconds: nat)
    ensures FormatDuration(seconds)[0] == '0' <==> seconds < 600
  {
    var m := seconds / 60;
    var mm := Field(m);
    assert FormatDuration(seconds)[0] == mm[0];
    if m >= 10 {
      assert mm == NatToString(m);
    }
  }

  /** Reads a display string back: digits, a colon, then exactly two digits
      below 60. Anything else is rejected. */
  function ParseDuration(t: string): (r: Option<nat>)
    ensures r.Some? ==> |t| >= 5 && t[|t| - 3] == ':'
  {
    if |t| < 5 || t[|t| - 3] != ':' then None
    else
      var mm := t[..|t| - 3];
      var ss := t[|t| - 2..];
      if IsDigits(mm) && IsDigits(ss) && Value(ss) < 60 then Some(Value(mm) * 60 + Value(ss))
      else None
  }

  /** A well-shaped display reads back as minutes times 60 plus seconds. */
  lemma ParseShaped(t: string)
    requires |t| >= 5 && t[|t| - 3] == ':'
    requires IsDigits(t[..|t| - 3]) && IsDigits(t[|t| - 2..]) && Value(t[|t| - 2..]) < 60
    ensures ParseDuration(t) == Some(Value(t[..|t| - 3]) * 60 + Value(t[|t| - 2..]))
  {
  }

  /** Reading the display back recovers the elapsed seconds. */
  lemma ParseFormat(seconds: nat)
    ensures ParseDuration(FormatDuration(seconds)) == Some(seconds)
  {
    ParseShaped(FormatDuration(seconds));
  }

  lemma DivMod(seconds: nat)
    ensures (seconds / 60) * 60 + seconds % 60 == seconds
    ensures seconds % 60 < 60
    ensures seconds / 60 < 100 <==> seconds < 6000
  {
  }

  /** Distinct durations are displayed differently. */
  lemma FormatInjective(a: nat, b: nat)
    requires FormatDuration(a) == FormatDuration(b)
    ensures a == b
  {
    ParseFormat(a);
    ParseFormat(b);
  }
}

=== FILE: flow.dfy ===
/** The interview flow: four steps, the handlers that move between them,
    the result recorded on completion, and the page each step shows. */
module Flow {
  import opened Common

  datatype FlowStep = Setup | Audio | Interview | Complete

  /** The recorded interview result, `{ outcome, ...data }`: string-keyed
      fields; `None` is the initial `null`. */
  datatype FlowState = FlowState(step: FlowStep, result: Option<map<string, string>>)

  function Init(): FlowState {
    FlowState(Setup, None)
  }

  datatype Handler =
    | StartInterview
    | AudioComplete
    | InterviewComplete(outcome: string, data: map<string, string>)

  /** Position in the flow, for stating that it only moves forward. */
  function Rank(step: FlowStep): nat {
    match step
    case Setup => 0
    case Audio => 1
    case Interview => 2
    case Complete => 3
  }

  const OutcomeKey := "outcome"

  /** `{ outcome, ...data }`: a spread field of the same name overrides the
      argument. */
  function Record(outcome: string, data: map<string, string>): (r: map<string, string>)
    ensures r.Keys == data.Keys + {OutcomeKey}
    ensures r[OutcomeKey] == if OutcomeKey in data then data[OutcomeKey] else outcome
    ensures forall k :: k in data ==> r[k] == data[k]
  {
    map[OutcomeKey := outcome] + data
  }

  /** The three handler bodies; none of them looks at the current step. */
  function Fire(f: FlowState, h: Handler): (r: FlowState)
    ensures h.StartInterview? ==> r == f.(step := Audio)
    ensures h.AudioComplete? ==> r == f.(step := Interview)
    ensures h.InterviewComplete? ==> r.step == Complete && r.result == Some(Record(h.outcome, h.data))
  {
    match h
    case StartInterview => f.(step := Audio)
    case AudioComplete => f.(step := Interview)
    case InterviewComplete(o, d) => FlowState(Complete, Some(Record(o, d)))
  }

  /** Which handler the component rendered for a step receives: the setup
      page gets none, the audio step `onComplete`, the voice screen
      `onInterviewComplete`. */
  predicate Wired(step: FlowStep, h: Handler) {
    match step
    case Setup => false
    case Audio => h.AudioComplete?
    case Interview => h.InterviewComplete?
    case Complete => false
  }

  /** A handler invoked by the component on screen; one it was never given
      cannot be invoked. */
  function Dispatch(f: FlowState, h: Handler): (r: FlowState)
    ensures Rank(r.step) == Rank(f.step) || Rank(r.step) == Rank(f.step) + 1
    ensures r.step != f.step <==> Wired(f.step, h)
    ensures !Wired(f.step, h) ==> r == f
  {
    if Wired(f.step, h) then Fire(f, h) else f
  }

  function Run(f: FlowState, hs: seq<Handler>): FlowState
    decreases |hs|
  {
    if |hs| == 0 then f else Run(Dispatch(f, hs[0]), hs[1..])
  }

  /** The flow never moves backward. */
  lemma {:induction false} RunMonotone(f: FlowState, hs: seq<Handler>)
    ensures Rank(Run(f, hs).step) >= Rank(f.step)
    decreases |hs|
  {
    if |hs| > 0 {
      RunMonotone(Dispatch(f, hs[0]), hs[1..]);
    }
  }

  /** The setup page is given no handler, so from the initial state the
      flow stays on the setup step whatever is invoked. */
  lemma {:induction false} StuckAtSetup(hs: seq<Handler>)
    ensures Run(Init(), hs) == Init()
    decreases |hs|
  {
    if |hs| > 0 {
      StuckAtSetup(hs[1..]);
    }
  }

  datatype Page = SetupPage | AudioPage | VoicePage | PassPage | ThankYouPage

  /** `interviewResult?.outcome === "pass"`. */
  predicate Passed(result: Option<map<string, string>>) {
    result.Some? && OutcomeKey in result.value && result.value[OutcomeKey] == "pass"
  }

  /** The page each step renders; the complete step shows the pass page
      exactly when the recorded outcome is "pass". */
  function PageOf(f: FlowState): (p: Page)
    ensures p == SetupPage <==> f.step == Setup
    ensures p == AudioPage <==> f.step == Audio
    ensures p == VoicePage <==> f.step == Interview
    ensures p == PassPage <==> f.step == Complete && Passed(f.result)
    ensures p == ThankYouPage <==> f.step == Complete && !Passed(f.result)
  {
    match f.step
    case Setup => SetupPage
    case Audio => AudioPage
    case Interview => VoicePage
    case Complete => if Passed(f.result) then PassPage else ThankYouPage
  }

  /** Completing with outcome "pass" shows the pass page unless the data
      carries its own `outcome`, which then decides. */
  lemma CompletionPage(o: string, data: map<string, string>)
    ensures PageOf(Dispatch(FlowState(Interview, None), InterviewComplete(o, data))) == PassPage
            <==> (if OutcomeKey in data then data[OutcomeKey] else o) == "pass"
  {
  }
}

=== FILE: inbound.dfy ===
/** Inbound messages from the conversational session, as the voice screen
    receives them: loosely shaped records whose fields may be absent and
    whose meaning is spread over alternative field names. The canonical
    form names, once, what a message says: an utterance with its speaker,
    and a request to present the scheduling surface. */
module Inbound {
  import opened Common

  /** The arguments object of a tool call; only `candidateName` is read. */
  datatype ToolArgs = ToolArgs(candidateName: Option<string>)

  /** A message as delivered: either not an object at all (`null`, a string,
      a number), or an object with the fields the handler reads. `None`
      stands for an absent (`undefined`) field. */
  datatype Payload =
    | NotAnObject
    | Fields(msgType: Option<string>, source: Option<string>,
             message: Option<string>, text: Option<string>, content: Option<string>,
             func: Option<string>, name: Option<string>, tool: Option<string>,
             arguments: Option<ToolArgs>, args: Option<ToolArgs>)

  /** JavaScript truthiness of an optional string field: present and non-empty. */
  predicate Truthy(o: Option<string>) {
    o.Some? && o.value != ""
  }

  /** `a || b` for an optional string `a` and a string `b`. */
  function Or(a: Option<string>, b: string): (r: string)
    ensures Truthy(a) ==> r == a.value
    ensures !Truthy(a) ==> r == b
  {
    if Truthy(a) then a.value else b
  }

  /** `message.message || message.text || message.content || ''`. */
  function TextOf(p: Payload): (r: string)
    requires p.Fields?
    ensures r != "" <==> Truthy(p.message) || Truthy(p.text) || Truthy(p.content)
    ensures Truthy(p.message) ==> r == p.message.value
    ensures !Truthy(p.message) && Truthy(p.text) ==> r == p.text.value
    ensures !Truthy(p.message) && !Truthy(p.text) && Truthy(p.content) ==> r == p.content.value
  {
    Or(p.message, Or(p.text, Or(p.content, "")))
  }

  /** The agent test: `type === 'agent_response' || source === 'ai'`. */
  predicate FromAgent(p: Payload) {
    p.Fields? && (p.msgType == Some("agent_response") || p.source == Some("ai"))
  }

  /** The user test: `type === 'user_transcript' || source === 'user'`. */
  predicate FromUser(p: Payload) {
    p.Fields? && (p.msgType == Some("user_transcript") || p.source == Some("user"))
  }

  /** Neither `type` nor `source` is truthy. */
  predicate Unlabelled(p: Payload) {
    p.Fields? && !Truthy(p.msgType) && !Truthy(p.source)
  }

  /** `type === "function_call" || type === "tool_call"`. */
  predicate IsToolCall(p: Payload) {
    p.Fields? && (p.msgType == Some("function_call") || p.msgType == Some("tool_call"))
  }

  /** `message.function || message.name || message.tool`; the empty string
      stands for a falsy result, which never equals a tool name. */
  function ToolName(p: Payload): (r: string)
    requires p.Fields?
    ensures r == "" <==> !Truthy(p.func) && !Truthy(p.name) && !Truthy(p.tool)
    ensures Truthy(p.func) ==> r == p.func.value
    ensures !Truthy(p.func) && Truthy(p.name) ==> r == p.name.value
    ensures !Truthy(p.func) && !Truthy(p.name) && Truthy(p.tool) ==> r == p.tool.value
  {
    Or(p.func, Or(p.name, Or(p.tool, "")))
  }

  /** `(message.arguments || message.args || {}).candidateName || ""`; an
      arguments object is always truthy, so the first present one is used. */
  function CandidateNameOf(p: Payload): (r: string)
    requires p.Fields?
    ensures p.arguments.Some? ==> r == Or(p.arguments.value.candidateName, "")
    ensures p.arguments.None? && p.args.Some? ==> r == Or(p.args.value.candidateName, "")
    ensures p.arguments.None? && p.args.None? ==> r == ""
  {
    var a := if p.arguments.Some? then p.arguments.value
             else if p.args.Some? then p.args.value
             else ToolArgs(None);
    Or(a.candidateName, "")
  }

  /** The one tool this client recognises. */
  const ShowCalendly := "showCalendly"

  /** The tool-call test in full: a tool call naming `showCalendly` exactly. */
  predicate AsksForScheduling(p: Payload) {
    IsToolCall(p) && ToolName(p) == ShowCalendly
  }

  datatype Speaker = Agent | Candidate | Unattributed

  datatype Utterance = Utterance(speaker: Speaker, text: string)

  /** What a message says, independently of how it was encoded: at most one
      utterance, and at most one scheduling request carrying the candidate's
      name (possibly empty). */
  datatype Canonical = Canonical(utterance: Option<Utterance>, scheduling: Option<string>)

  /** The canonical reading of a payload. A message that passes both the
      agent and the user test is the candidate's; one with neither `type`
      nor `source` is unattributed; one with a `type` or `source` that
      neither test recognises carries no utterance. Empty text carries
      none either. */
  function Normalize(p: Payload): (c: Canonical)
    ensures p.NotAnObject? ==> c == Canonical(None, None)
    ensures c.utterance.Some? ==> c.utterance.value.text != ""
    ensures c.scheduling.Some? <==> AsksForScheduling(p)
  {
    match p
    case NotAnObject => Canonical(None, None)
    case Fields(_, _, _, _, _, _, _, _, _, _) =>
      var t := TextOf(p);
      var u :=
        if t == "" then None
        else if FromUser(p) then Some(Utterance(Candidate, t))
        else if FromAgent(p) then Some(Utterance(Agent, t))
        else if Unlabelled(p) then Some(Utterance(Unattributed, t))
        else None;
      Canonical(u, if AsksForScheduling(p) then Some(CandidateNameOf(p)) else None)
  }

  /** At most one speaker is attributed, and the attribution follows the
      tests: the candidate exactly when the user test passes, the agent
      exactly when only the agent test passes. */
  lemma SpeakerAttribution(p: Payload)
    requires p.Fields? && TextOf(p) != ""
    ensures Normalize(p).utterance == Some(Utterance(Candidate, TextOf(p))) <==> FromUser(p)
    ensures Normalize(p).utterance == Some(Utterance(Agent, TextOf(p))) <==> FromAgent(p) && !FromUser(p)
    ensures Normalize(p).utterance == Some(Utterance(Unattributed, TextOf(p))) <==> Unlabelled(p)
    ensures Normalize(p).utterance.None? <==> !FromUser(p) && !FromAgent(p) && !Unlabelled(p)
  {
  }
}

=== FILE: session.dfy ===
/** The live voice session screen: its local state record, the SDK-owned
    connection status, the window-global microphone handle, and the events
    that change them. Each event is a pure transition; the effect that
    follows a render (writing the mute switch to the microphone tracks)
    is applied after every transition whose dependencies changed. */
module Session {
  import opened Common
  import opened Capture
  import opened Inbound

  /** The SDK's connection status; only SDK events change it. */
  datatype Status = Connecting | Connected | Disconnected

  /** The component's state. `mic` is the window-global microphone stream
      left by the device set-up step; `streamRef` is the component's ref to
      that same stream object. `sdkSpeaking` mirrors the SDK's `isSpeaking`
      and `quietPending` says whether the timer that clears
      `isAgentSpeaking` is armed. */
  datatype State = State(
    isMuted: bool,
    errorMessage: string,
    callDuration: nat,
    transcript: string,
    isAgentSpeaking: bool,
    hasEnded: bool,
    showCalendly: bool,
    candidateName: string,
    status: Status,
    sdkSpeaking: bool,
    quietPending: bool,
    mic: Option<Handle>,
    streamRef: Option<Handle>)

  const ConnectFailedMessage := "Failed to connect. Please refresh and try again."
  const RestartFailedMessage := "Failed to restart"
  const YouPrefix := "You: "

  /** The state at mount. The SDK reports `disconnected` before a session
      starts, and the speaking effect runs once at mount with `isSpeaking`
      false, which arms the quiet timer. */
  function Init(mic: Option<Handle>): State {
    State(false, "", 0, "", false, false, false, "", Disconnected, false, true, mic, None)
  }

  /** What `onError` receives: a string, or an error object. */
  datatype ErrorPayload = ErrorText(text: string) | ErrorObject(message: string)

  /** How a call to the SDK's `startSession` settles. */
  datatype StartOutcome = Started | StartFailed

  /** Everything that can happen to the screen. The SDK events, the start
      outcomes and the timers are chosen by the environment. */
  datatype Event =
    | Startup(start: StartOutcome)
    | SdkConnecting
    | SdkConnect
    | SdkDisconnect
    | Message(payload: Payload)
    | SdkError(error: ErrorPayload)
    | SdkSpeaking(speaking: bool)
    | QuietTimeout
    | Tick
    | EndCall(endedOk: bool)
    | ToggleMute
    | TalkAgain(restart: StartOutcome)
    | CloseScheduling

  // ----- inbound messages -------------------------------------------------

  /** The agent branch of `onMessage`. */
  function AgentBlock(s: State, p: Payload): (r: State)
    requires p.Fields?
    ensures r.status == s.status && r.hasEnded == s.hasEnded
    ensures r.mic == s.mic && r.streamRef == s.streamRef
    ensures r.isMuted == s.isMuted && r.errorMessage == s.errorMessage
    ensures r.callDuration == s.callDuration
    ensures r.sdkSpeaking == s.sdkSpeaking && r.quietPending == s.quietPending
    ensures r.showCalendly == s.showCalendly && r.candidateName == s.candidateName
  {
    var t := TextOf(p);
    if FromAgent(p) && t != "" then s.(transcript := t, isAgentSpeaking := true) else s
  }

  /** The user branch of `onMessage`. */
  function UserBlock(s: State, p: Payload): (r: State)
    requires p.Fields?
    ensures r.status == s.status && r.hasEnded == s.hasEnded
    ensures r.mic == s.mic && r.streamRef == s.streamRef
    ensures r.isMuted == s.isMuted && r.errorMessage == s.errorMessage
    ensures r.callDuration == s.callDuration
    ensures r.sdkSpeaking == s.sdkSpeaking && r.quietPending == s.quietPending
    ensures r.showCalendly == s.showCalendly && r.candidateName == s.candidateName
  {
    var t := TextOf(p);
    if FromUser(p) && t != "" then s.(transcript := YouPrefix + t, isAgentSpeaking := false) else s
  }

  /** The branch for messages with neither `type` nor `source`. */
  function UnlabelledBlock(s: State, p: Payload): (r: State)
    requires p.Fields?
    ensures r.status == s.status && r.hasEnded == s.hasEnded
    ensures r.mic == s.mic && r.streamRef == s.streamRef
    ensures r.isMuted == s.isMuted && r.errorMessage == s.errorMessage
    ensures r.callDuration == s.callDuration
    ensures r.sdkSpeaking == s.sdkSpeaking && r.quietPending == s.quietPending
    ensures r.showCalendly == s.showCalendly && r.candidateName == s.candidateName
    ensures r.isAgentSpeaking == s.isAgentSpeaking
  {
    var t := TextOf(p);
    if Unlabelled(p) && t != "" then s.(transcript := t) else s
  }

  /** The tool-call branch. */
  function ToolBlock(s: State, p: Payload): (r: State)
    requires p.Fields?
    ensures r.status == s.status && r.hasEnded == s.hasEnded
    ensures r.mic == s.mic && r.streamRef == s.streamRef
    ensures r.isMuted == s.isMuted && r.errorMessage == s.errorMessage
    ensures r.callDuration == s.callDuration
    ensures r.sdkSpeaking == s.sdkSpeaking && r.quietPending == s.quietPending
    ensures r.transcript == s.transcript && r.isAgentSpeaking == s.isAgentSpeaking
  {
    if AsksForScheduling(p) then s.(candidateName := CandidateNameOf(p), showCalendly := true) else s
  }

  /** `onMessage`: the four branches in source order, each seeing the
      updates of the ones before it. */
  function OnMessage(s: State, p: Payload): (r: State)
    // only the transcript, the speaking flag and the scheduling fields move
    ensures r.status == s.status && r.hasEnded == s.hasEnded
    ensures r.mic == s.mic && r.streamRef == s.streamRef
    ensures r.isMuted == s.isMuted && r.errorMessage == s.errorMessage
    ensures r.callDuration == s.callDuration
    ensures r.sdkSpeaking == s.sdkSpeaking && r.quietPending == s.quietPending
    // a non-object changes nothing
    ensures p.NotAnObject? ==> r == s
    // exactly `showCalendly` raises the scheduling surface with the carried name
    ensures AsksForScheduling(p) ==> r.showCalendly && r.candidateName == CandidateNameOf(p)
    ensures !AsksForScheduling(p) ==> r.showCalendly == s.showCalendly && r.candidateName == s.candidateName
  {
    if p.NotAnObject? then s
    else
      var s1 := AgentBlock(s, p);
      var s2 := UserBlock(s1, p);
      var s3 := UnlabelledBlock(s2, p);
      assert Unlabelled(p) ==> !FromUser(p) && !FromAgent(p);
      ToolBlock(s3, p)
  }

  /** An agent message with text overwrites the transcript with exactly
      that text (never appending) and marks the agent as speaking, unless
      the user test also passes. */
  lemma AgentMessageOverwrites(s: State, p: Payload)
    requires p.Fields? && TextOf(p) != "" && FromAgent(p) && !FromUser(p)
    ensures OnMessage(s, p).transcript == TextOf(p)
    ensures OnMessage(s, p).isAgentSpeaking
  {
  }

  /** A user message with text shows it prefixed with "You: " and clears
      the speaking flag; applied after the agent branch, it wins when both
      tests pass. */
  lemma UserMessageWins(s: State, p: Payload)
    requires p.Fields? && TextOf(p) != "" && FromUser(p)
    ensures OnMessage(s, p).transcript == YouPrefix + TextOf(p)
    ensures !OnMessage(s, p).isAgentSpeaking
  {
  }

  /** A message with neither `type` nor `source` shows its text and leaves
      the speaking flag alone. */
  lemma UnlabelledKeepsSpeaker(s: State, p: Payload)
    requires p.Fields? && TextOf(p) != "" && Unlabelled(p)
    ensures OnMessage(s, p).transcript == TextOf(p)
    ensures OnMessage(s, p).isAgentSpeaking == s.isAgentSpeaking
  {
  }

  /** Without text, or with a `type`/`source` neither test knows, the
      transcript and speaking flag stay as they were. */
  lemma SilentMessageKeepsTranscript(s: State, p: Payload)
    requires p.Fields?
    requires TextOf(p) == "" || !(FromUser(p) || FromAgent(p) || Unlabelled(p))
    ensures OnMessage(s, p).transcript == s.transcript
    ensures OnMessage(s, p).isAgentSpeaking == s.isAgentSpeaking
  {
  }

  /** The reducer over canonical messages: an utterance overwrites the
      single transcript slot, tagged by speaker; a scheduling request
      raises the surface and records the name. */
  function Apply(s: State, c: Canonical): State {
    var s1 :=
      match c.utterance
      case None => s
      case Some(Utterance(Agent, t)) => s.(transcript := t, isAgentSpeaking := true)
      case Some(Utterance(Candidate, t)) => s.(transcript := YouPrefix + t, isAgentSpeaking := false)
      case Some(Utterance(Unattributed, t)) => s.(transcript := t);
    match c.scheduling
    case None => s1
    case Some(n) => s1.(candidateName := n, showCalendly := true)
  }

  /** The handler's chain of loosely typed tests is the canonical reducer
      applied to the normalised message. */
  lemma OnMessageIsCanonical(s: State, p: Payload)
    ensures OnMessage(s, p) == Apply(s, Normalize(p))
  {
    if p.Fields? && TextOf(p) != "" {
      SpeakerAttribution(p);
    }
  }

  // ----- connection lifecycle ---------------------------------------------

  /** `onConnect`, with the SDK's status now `connected`. */
  function OnConnect(s: State): (r: State)
    ensures r.status == Connected && !r.hasEnded
    ensures r.mic == s.mic
    ensures s.mic.Some? ==> r.streamRef == s.mic
    ensures s.mic.None? ==> r.streamRef == s.streamRef
    ensures r.(status := s.status, hasEnded := s.hasEnded, streamRef := s.streamRef) == s
  {
    s.(status := Connected, hasEnded := false,
       streamRef := if s.mic.Some? then s.mic else s.streamRef)
  }

  /** `onDisconnect`, with the SDK's status now `disconnected`. The second
      component is the stream that was released, if the global held one. */
  function OnDisconnect(s: State): (r: (State, Option<Handle>))
    ensures r.0.status == Disconnected && r.0.hasEnded
    ensures r.0.(status := s.status, hasEnded := s.hasEnded, mic := s.mic, streamRef := s.streamRef) == s
    ensures r.0.mic.None? && r.0.streamRef.None?
    ensures r.0.isMuted == s.isMuted && r.0.callDuration == s.callDuration
    ensures r.0.transcript == s.transcript && r.0.errorMessage == s.errorMessage
    ensures r.0.showCalendly == s.showCalendly && r.0.candidateName == s.candidateName
    ensures r.1.Some? <==> s.mic.Some?
    ensures r.1.Some? ==> Released(r.1.value) && |r.1.value.tracks| == |s.mic.value.tracks|
  {
    var released := match s.mic
      case None => None
      case Some(h) => Some(StopAll(h));
    (s.(status := Disconnected, hasEnded := true, mic := None, streamRef := None), released)
  }

  /** A stream is released at most once: a second disconnect finds nothing
      to stop. */
  lemma ReleaseOnce(s: State)
    ensures OnDisconnect(OnDisconnect(s).0).1.None?
  {
  }

  // ----- the transition function -----------------------------------------

  /** The startup effect and `handleTalkAgain` both end in `startSession`;
      a failure leaves its message. */
  function AfterStart(s: State, outcome: StartOutcome, failure: string): State {
    if outcome == StartFailed then s.(errorMessage := failure) else s
  }

  /** The handler bodies, before any effect runs. */
  function React(s: State, e: Event): State {
    match e
    case Startup(o) =>
      AfterStart(s.(errorMessage := "", hasEnded := false), o, ConnectFailedMessage)
    case SdkConnecting => s.(status := Connecting)
    case SdkConnect => OnConnect(s)
    case SdkDisconnect => OnDisconnect(s).0
    case Message(p) => OnMessage(s, p)
    case SdkError(err) =>
      s.(errorMessage := match err case ErrorText(t) => t case ErrorObject(m) => m)
    case SdkSpeaking(b) =>
      if b == s.sdkSpeaking then s
      else if b then s.(sdkSpeaking := true, isAgentSpeaking := true, quietPending := false)
      else s.(sdkSpeaking := false, quietPending := true)
    case QuietTimeout =>
      if s.quietPending then s.(isAgentSpeaking := false, quietPending := false) else s
    case Tick =>
      if s.status == Connected then s.(callDuration := s.callDuration + 1) else s
    case EndCall(ok) => if ok then s.(hasEnded := true) else s
    case ToggleMute => s.(isMuted := !s.isMuted)
    case TalkAgain(o) =>
      var reset := s.(hasEnded := false, callDuration := 0, transcript := "",
                      showCalendly := false, candidateName := "", errorMessage := "",
                      isMuted := false);
      AfterStart(reset, o, RestartFailedMessage)
    case CloseScheduling => s.(showCalendly := false)
  }

  /** The mute effect: while connected, every track of the stream gets
      `enabled = !isMuted`, through the global and through the ref. */
  function MuteEffect(s: State): (r: State)
    ensures r.(mic := s.mic, streamRef := s.streamRef) == s
    ensures s.status != Connected ==> r == s
    ensures s.status == Connected && r.mic.Some? ==> AllEnabledAre(r.mic.value, !s.isMuted)
    ensures s.status == Connected && r.streamRef.Some? ==> AllEnabledAre(r.streamRef.value, !s.isMuted)
    ensures r.mic.Some? <==> s.mic.Some?
    ensures r.streamRef.Some? <==> s.streamRef.Some?
    // only the switches are written: every track of either handle is kept
    ensures s.status == Connected ==>
      r.mic == SetEnabledIfAny(s.mic, !s.isMuted) && r.streamRef == SetEnabledIfAny(s.streamRef, !s.isMuted)
  {
    if s.status == Connected then
      s.(mic := SetEnabledIfAny(s.mic, !s.isMuted), streamRef := SetEnabledIfAny(s.streamRef, !s.isMuted))
    else s
  }

  /** One event: the handler, then the mute effect if `isMuted` or the
      status changed. */
  function Step(s: State, e: Event): State {
    var t := React(s, e);
    if t.isMuted != s.isMuted || t.status != s.status then MuteEffect(t) else t
  }

  /** A sequence of events, in arrival order. */
  function Run(s: State, es: seq<Event>): State
    decreases |es|
  {
    if |es| == 0 then s else Run(Step(s, es[0]), es[1..])
  }

  // ----- properties of the transition function ---------------------------

  /** The ref is either empty or the very stream the global holds, and
      while connected the tracks follow the mute switch. */
  predicate Inv(s: State) {
    && (s.streamRef.None? || s.streamRef == s.mic)
    && (s.status == Connected && s.mic.Some? ==> AllEnabledAre(s.mic.value, !s.isMuted))
  }

  lemma InitInv(mic: Option<Handle>)
    ensures Inv(Init(mic))
  {
  }

  /** Apart from the SDK's connect and disconnect, no handler touches
      the stream. */
  lemma ReactKeepsStream(s: State, e: Event)
    requires !e.SdkConnect? && !e.SdkDisconnect?
    ensures React(s, e).mic == s.mic && React(s, e).streamRef == s.streamRef
  {
    match e
    case Message(p) =>
    case TalkAgain(o) =>
    case Startup(o) =>
    case _ =>
  }

  lemma StepInv(s: State, e: Event)
    requires Inv(s)
    ensures Inv(Step(s, e))
  {
    var t := React(s, e);
    if e.SdkConnect? || e.SdkDisconnect? {
      assert t.streamRef.None? || t.streamRef == t.mic;
    } else {
      ReactKeepsStream(s, e);
      if t.isMuted == s.isMuted && t.status == s.status {
        assert Step(s, e) == t;
      }
    }
  }

  /** From mount, whatever the events, the ref never points to a stream
      other than the global one, and a connected session's tracks are
      enabled exactly when the screen is not muted; in particular mute
      toggles made before the connection are caught up on connecting. */
  lemma {:induction false} RunInv(s: State, es: seq<Event>)
    requires Inv(s)
    ensures Inv(Run(s, es))
    decreases |es|
  {
    if |es| > 0 {
      StepInv(s, es[0]);
      RunInv(Step(s, es[0]), es[1..]);
    }
  }

  /** Connecting applies the current mute switch to every track. */
  lemma ConnectAppliesMute(s: State)
    requires s.status != Connected && s.mic.Some?
    ensures Step(s, SdkConnect).status == Connected
    ensures Step(s, SdkConnect).mic.Some?
    ensures AllEnabledAre(Step(s, SdkConnect).mic.value, !s.isMuted)
  {
  }

  /** Muting twice restores the state exactly, tracks included. */
  lemma ToggleTwice(s: State)
    requires Inv(s)
    ensures Step(Step(s, ToggleMute), ToggleMute) == s
  {
    if s.status == Connected && s.mic.Some? {
      var h := s.mic.value;
      SetEnabledTwice(h, s.isMuted, !s.isMuted);
      SetEnabledIdempotent(h, !s.isMuted);
    }
  }

  /** `onError`: the string itself, or the error object's message, becomes
      the error message; nothing else moves. */
  lemma ErrorShowsMessage(s: State, err: ErrorPayload)
    ensures err.ErrorText? ==> Step(s, SdkError(err)) == s.(errorMessage := err.text)
    ensures err.ErrorObject? ==> Step(s, SdkError(err)) == s.(errorMessage := err.message)
  {
  }

  /** The startup effect clears the error and the ended flag; a failed
      start then leaves the fixed connection message, which the error screen
      shows unless the scheduling surface is up while connected. */
  lemma StartupOutcome(s: State, o: StartOutcome)
    ensures var r := Step(s, Startup(o));
      && !r.hasEnded && r.status == s.status
      && r.errorMessage == (if o == StartFailed then ConnectFailedMessage else "")
      && r.(hasEnded := s.hasEnded, errorMessage := s.errorMessage) == s
    ensures o == StartFailed ==>
      (ViewOf(Step(s, Startup(o))) == ErrorScreen <==> !(s.showCalendly && s.status == Connected))
  {
  }

  /** From mount, a failed start shows the error screen. */
  lemma FailedStartShowsError(mic: Option<Handle>)
    ensures ViewOf(Step(Init(mic), Startup(StartFailed))) == ErrorScreen
  {
    StartupOutcome(Init(mic), StartFailed);
  }

  /** `handleEndConversation`: the ended flag is set exactly when
      `endSession` resolves; a rejection changes nothing. */
  lemma EndCallOnlyEnds(s: State, ok: bool)
    ensures Step(s, EndCall(ok)) == if ok then s.(hasEnded := true) else s
  {
  }

  /** `toggleMute` flips the switch and, apart from the tracks it writes
      while connected, changes nothing else. */
  lemma ToggleFlips(s: State)
    ensures Step(s, ToggleMute).isMuted == !s.isMuted
    ensures Step(s, ToggleMute).(isMuted := s.isMuted, mic := s.mic, streamRef := s.streamRef) == s
  {
  }

  /** The speaking effect: when the SDK stops speaking, the flag is cleared
      once the quiet timer fires. */
  lemma QuietClearsSpeaking(s: State)
    requires s.sdkSpeaking
    ensures !Step(Step(s, SdkSpeaking(false)), QuietTimeout).isAgentSpeaking
  {
  }

  /** Speaking again before the timer fires cancels it: the flag stays set. */
  lemma SpeakingAgainCancelsQuiet(s: State)
    requires s.sdkSpeaking
    ensures Step(Step(Step(s, SdkSpeaking(false)), SdkSpeaking(true)), QuietTimeout).isAgentSpeaking
  {
  }

  /** The speaking effect touches only the speaking flag and its timer. */
  lemma SpeakingOnlyMovesFlags(s: State, b: bool)
    ensures Step(s, SdkSpeaking(b)).(isAgentSpeaking := s.isAgentSpeaking, sdkSpeaking := s.sdkSpeaking,
                                     quietPending := s.quietPending) == s
  {
  }

  /** The quiet timer touches only the speaking flag and itself. */
  lemma QuietOnlyMovesFlag(s: State)
    ensures Step(s, QuietTimeout).(isAgentSpeaking := s.isAgentSpeaking, quietPending := s.quietPending) == s
  {
  }

  /** The SDK's `connecting` status changes nothing else. */
  lemma ConnectingOnlyStatus(s: State)
    ensures Step(s, SdkConnecting) == s.(status := Connecting)
  {
  }

  /** While the SDK speaks, the flag is set whatever the message before. */
  lemma SpeakingSetsFlag(s: State)
    requires !s.sdkSpeaking
    ensures Step(s, SdkSpeaking(true)).isAgentSpeaking && Step(s, SdkSpeaking(true)).sdkSpeaking
  {
  }

  /** Only the SDK's own events move the connection status. */
  lemma StatusOwnedBySdk(s: State, e: Event)
    requires !e.SdkConnecting? && !e.SdkConnect? && !e.SdkDisconnect?
    ensures Step(s, e).status == s.status
  {
    var t := React(s, e);
    assert t.status == s.status by {
      match e
      case Message(p) =>
      case TalkAgain(o) =>
      case Startup(o) =>
      case _ =>
    }
    assert MuteEffect(t).status == t.status;
  }

  /** The duration counts ticks only while connected. */
  lemma TickCounts(s: State)
    ensures s.status == Connected ==> Step(s, Tick) == s.(callDuration := s.callDuration + 1)
    ensures s.status != Connected ==> Step(s, Tick) == s
  {
  }

  /** `handleTalkAgain` clears the previous call before starting anew; a
      failed restart leaves only its message. */
  lemma TalkAgainResets(s: State, o: StartOutcome)
    ensures var r := Step(s, TalkAgain(o));
      && !r.hasEnded && r.callDuration == 0 && r.transcript == ""
      && !r.showCalendly && r.candidateName == "" && !r.isMuted
      && r.status == s.status
      && r.errorMessage == (if o == StartFailed then RestartFailedMessage else "")
    // nothing else moves, apart from the tracks an unmute writes while connected
    ensures var r := Step(s, TalkAgain(o));
      r.(hasEnded := s.hasEnded, callDuration := s.callDuration, transcript := s.transcript,
         showCalendly := s.showCalendly, candidateName := s.candidateName,
         errorMessage := s.errorMessage, isMuted := s.isMuted,
         mic := s.mic, streamRef := s.streamRef) == s
  {
  }

  /** Closing the scheduling surface touches nothing else. */
  lemma CloseSchedulingOnly(s: State)
    ensures Step(s, CloseScheduling) == s.(showCalendly := false)
  {
  }

  // ----- which screen is shown --------------------------------------------

  datatype View = Scheduling | Ended | ErrorScreen | ConnectingScreen | Live

  /** The render chain: scheduling, ended, error, connecting, live. */
  function ViewOf(s: State): (v: View)
    ensures v == Scheduling <==> s.showCalendly && s.status == Connected
    ensures v == Ended <==> s.hasEnded && s.status == Disconnected
    ensures v == ErrorScreen <==>
      s.errorMessage != "" && !(s.showCalendly && s.status == Connected)
      && !(s.hasEnded && s.status == Disconnected)
    ensures v == ConnectingScreen <==>
      s.errorMessage == "" && s.status == Disconnected && !s.hasEnded
    ensures v == Live <==>
      s.errorMessage == "" && s.status != Disconnected && !(s.showCalendly && s.status == Connected)
  {
    if s.showCalendly && s.status == Connected then Scheduling
    else if s.hasEnded && s.status == Disconnected then Ended
    else if s.errorMessage != "" then ErrorScreen
    else if s.status == Disconnected && !s.hasEnded then ConnectingScreen
    else Live
  }

  /** A disconnect always lands on the call-ended screen, even over an
      error message or a raised scheduling surface. */
  lemma DisconnectShowsEnded(s: State)
    ensures ViewOf(Step(s, SdkDisconnect)) == Ended
  {
  }
}

=== FILE: slug.dfy ===
/** The interview-setup screen's reading of the current path: the slug is
    the first non-empty segment of the path split on '/', and starting the
    interview navigates to that slug's interview route. */
module Slug {
  import opened Common

  const Slash := '/'

  /** `s.split(sep)` for a one-character separator: the maximal runs
      between separators, including empty ones. */
  function Split(s: string, sep: char): (r: seq<string>)
    ensures |r| >= 1
    ensures forall i :: 0 <= i < |r| ==> sep !in r[i]
  {
    if |s| == 0 then [""]
    else
      var rest := Split(s[1..], sep);
      if s[0] == sep then [""] + rest
      else [[s[0]] + rest[0]] + rest[1..]
  }

  /** `parts.join(sep)`. */
  function Join(parts: seq<string>, sep: char): string
    requires |parts| >= 1
  {
    if |parts| == 1 then parts[0] else parts[0] + [sep] + Join(parts[1..], sep)
  }

  /** Splitting loses nothing: joining the pieces gives the input back. */
  lemma {:induction false} JoinSplit(s: string, sep: char)
    ensures Join(Split(s, sep), sep) == s
  {
    if |s| > 0 {
      var rest := Split(s[1..], sep);
      JoinSplit(s[1..], sep);
      if s[0] == sep {
        assert ([""] + rest)[1..] == rest;
      } else {
        var r := [[s[0]] + rest[0]] + rest[1..];
        if |rest| > 1 {
          assert r[1..] == rest[1..];
        }
      }
    }
  }

  /** `filter(Boolean)` on strings: drop the empty ones, keep the order. */
  function NonEmpty(xs: seq<string>): (r: seq<string>)
    ensures forall x :: x in r <==> x in xs && x != ""
  {
    if |xs| == 0 then []
    else (if xs[0] != "" then [xs[0]] else []) + NonEmpty(xs[1..])
  }

  /** `pathname.split('/').filter(Boolean)[0]`, with `None` for the
      `undefined` of an empty list. */
  function ExtractSlug(path: string): (r: Option<string>)
    ensures r.Some? ==> r.value != "" && Slash !in r.value
  {
    var segs := NonEmpty(Split(path, Slash));
    if |segs| == 0 then None
    else
      assert segs[0] in segs;
      Some(segs[0])
  }

  // ----- an independent reading: skip the slashes, take up to the next -----

  function SkipSlashes(p: string): (r: string)
    ensures |r| <= |p|
  {
    if |p| > 0 && p[0] == Slash then SkipSlashes(p[1..]) else p
  }

  function TakeSegment(p: string): string {
    if |p| == 0 || p[0] == Slash then "" else [p[0]] + TakeSegment(p[1..])
  }

  /** The first segment read directly off the path. */
  function FirstSegment(p: string): Option<string> {
    var q := SkipSlashes(p);
    if |q| == 0 then None else Some(TakeSegment(q))
  }

  lemma {:induction false} SplitHead(q: string)
    ensures Split(q, Slash)[0] == TakeSegment(q)
  {
    if |q| > 0 && q[0] != Slash {
      SplitHead(q[1..]);
    }
  }

  /** The split-and-filter chain finds the same slug as the direct reading. */
  lemma {:induction false} ExtractIsFirstSegment(p: string)
    ensures ExtractSlug(p) == FirstSegment(p)
  {
    if |p| > 0 {
      var rest := Split(p[1..], Slash);
      if p[0] == Slash {
        ExtractIsFirstSegment(p[1..]);
        assert ([""] + rest)[1..] == rest;
        assert NonEmpty(Split(p, Slash)) == NonEmpty(rest);
        assert ExtractSlug(p) == ExtractSlug(p[1..]);
        assert SkipSlashes(p) == SkipSlashes(p[1..]);
      } else {
        SplitHead(p);
        var segs := Split(p, Slash);
        assert segs[0] != "";
        assert NonEmpty(segs)[0] == segs[0];
        assert ExtractSlug(p) == Some(TakeSegment(p));
        assert SkipSlashes(p) == p;
      }
    } else {
      assert Split(p, Slash) == [""];
      assert NonEmpty([""]) == [] + NonEmpty([""][1..]);
    }
  }

  lemma {:induction false} TakeBeforeSlash(p: string, rest: string)
    ensures TakeSegment(p + [Slash] + rest) == TakeSegment(p)
  {
    if |p| > 0 && p[0] != Slash {
      assert (p + [Slash] + rest)[1..] == p[1..] + [Slash] + rest;
      TakeBeforeSlash(p[1..], rest);
    }
  }

  lemma {:induction false} TakeWholeSegment(seg: string)
    requires Slash !in seg
    ensures TakeSegment(seg) == seg
  {
    if |seg| > 0 {
      assert seg == [seg[0]] + seg[1..];
      TakeWholeSegment(seg[1..]);
    }
  }

  /** Leading slashes do not matter. */
  lemma LeadingSlash(p: string)
    ensures ExtractSlug([Slash] + p) == ExtractSlug(p)
  {
    ExtractIsFirstSegment([Slash] + p);
    ExtractIsFirstSegment(p);
    assert ([Slash] + p)[1..] == p;
  }

  lemma {:induction false} TrailingFirst(p: string)
    ensures FirstSegment(p + [Slash]) == FirstSegment(p)
  {
    if |p| == 0 {
      assert p + [Slash] == [Slash];
      assert SkipSlashes([Slash]) == SkipSlashes([Slash][1..]);
    } else if p[0] == Slash {
      assert (p + [Slash])[1..] == p[1..] + [Slash];
      TrailingFirst(p[1..]);
    } else {
      TakeBeforeSlash(p, "");
      assert p + [Slash] + "" == p + [Slash];
    }
  }

  /** A trailing slash does not matter. */
  lemma TrailingSlash(p: string)
    ensures ExtractSlug(p + [Slash]) == ExtractSlug(p)
  {
    ExtractIsFirstSegment(p + [Slash]);
    ExtractIsFirstSegment(p);
    TrailingFirst(p);
  }

  /** Only the first segment is kept, whatever follows it. */
  lemma FirstOnly(seg: string, rest: string)
    requires seg != "" && Slash !in seg
    ensures ExtractSlug([Slash] + seg + [Slash] + rest) == Some(seg)
  {
    LeadingSlash(seg + [Slash] + rest);
    assert [Slash] + seg + [Slash] + rest == [Slash] + (seg + [Slash] + rest);
    ExtractIsFirstSegment(seg + [Slash] + rest);
    assert seg[0] != Slash by { assert seg[0] in seg; }
    TakeBeforeSlash(seg, rest);
    TakeWholeSegment(seg);
  }

  lemma {:induction false} SkipAll(p: string)
    ensures SkipSlashes(p) == "" <==> forall i :: 0 <= i < |p| ==> p[i] == Slash
  {
    if |p| > 0 && p[0] == Slash {
      SkipAll(p[1..]);
      assert forall i :: 1 <= i < |p| ==> p[i] == p[1..][i - 1];
    }
  }

  /** There is no slug exactly when the path is nothing but slashes. */
  lemma NoSlug(p: string)
    ensures ExtractSlug(p).None? <==> forall i :: 0 <= i < |p| ==> p[i] == Slash
  {
    ExtractIsFirstSegment(p);
    SkipAll(p);
  }

  lemma ExampleTrailing()
    ensures ExtractSlug("/tammy/") == Some("tammy")
  {
    FirstOnly("tammy", "");
    assert "/tammy/" == [Slash] + "tammy" + [Slash] + "";
  }

  lemma ExampleBare()
    ensures ExtractSlug("/tammy") == Some("tammy")
  {
    ExampleTrailing();
    TrailingSlash("/tammy");
    assert "/tammy" + [Slash] == "/tammy/";
  }

  lemma ExampleDoubled()
    ensures ExtractSlug("//tammy") == Some("tammy")
  {
    ExampleBare();
    LeadingSlash("/tammy");
    assert [Slash] + "/tammy" == "//tammy";
  }

  lemma ExampleLater()
    ensures ExtractSlug("/tammy/interview") == Some("tammy")
  {
    FirstOnly("tammy", "interview");
    assert "/tammy/interview" == [Slash] + "tammy" + [Slash] + "interview";
  }

  /** The paths the set-up page is reached by. */
  lemma Examples()
    ensures ExtractSlug("/tammy") == Some("tammy")
    ensures ExtractSlug("/tammy/") == Some("tammy")
    ensures ExtractSlug("//tammy") == Some("tammy")
    ensures ExtractSlug("/tammy/interview") == Some("tammy")
    ensures ExtractSlug("/").None?
  {
    ExampleBare();
    ExampleTrailing();
    ExampleDoubled();
    ExampleLater();
    NoSlug("/");
  }

  /** The route `router.push` is given. A missing slug is rendered by the
      template literal as the text "undefined". */
  function NavigationTarget(slug: Option<string>): (r: string)
    ensures slug.Some? ==> r == "/" + slug.value + "/interview"
    ensures slug.None? ==> r == "/undefined/interview"
  {
    "/" + (match slug case Some(s) => s case None => "undefined") + "/interview"
  }

  /** The target leads back to the same slug: reading the slug off the
      interview route gives the slug it was built from. */
  lemma TargetKeepsSlug(path: string)
    requires ExtractSlug(path).Some?
    ensures ExtractSlug(NavigationTarget(ExtractSlug(path))) == ExtractSlug(path)
  {
    var seg := ExtractSlug(path).value;
    FirstOnly(seg, "interview");
    assert NavigationTarget(ExtractSlug(path)) == [Slash] + seg + [Slash] + "interview";
  }
}
